=== FILE: README.md ===
# Employee directory: a Dafny model

The repository is a one-page employee directory. It fetches twelve profiles from a
remote API. It shows each profile as a card in a gallery and filters the cards as
the user types. A click on a card opens a detail modal, and Prev/Next buttons step
through the profiles. This project models the logic under the DOM code:

- **Text** (`text.dfy`): ASCII lower-casing, literal substring search, the
  clamping `String.prototype.slice`, and the decimal conversions behind a card's
  `id` attribute. `i.toString()` writes the id and `Number(id)` reads it back.
- **DateFormat** (`date_format.dfy`): `formatDate`, which rearranges an ISO date
  into `MM-DD-YYYY` from three fixed slices.
- **Directory** (`directory.dfy`): the profile record, the three search fields
  (email, `First Last`, `City, State`), and `filterCards` as a pure function.
  The function maps the store and the term to the increasing list of matching
  store positions.
- **Modal** (`modal.dfy`): the detail modal as a two-state machine `ModalState` (`Closed` /
  `Open(i)`) with Prev, Next and Close. Navigation is bounded by the length of the
  full store.
- **App** (`app.dfy`): the page state `Page` (store, gallery cards, modal). It covers
  `createCards`, the click walk of `displayClickedCard` up to the nearest `card`
  element, and one `Step` per user event.
- **Scenario** (`scenario.dfy`): a worked session. Three profiles are loaded. A
  search for "boston" shows positions 0 and 2. Clicking the last visible card opens
  position 2. Next from position 0 moves to the hidden position 1.
- **Results** (`results.dfy`): `Option` and `Result`.

A profile's position in the store is its identity. A card carries that position
as its id. After a search, each surviving card keeps its original position. Prev
and Next then still walk the whole store, including profiles the search hid.
The model keeps this behaviour as the code has it.

Opening the modal on a position with no profile is modelled as an error
(`NoSuchProfile`). The code has no range check: `userList[cardIndex]` is
`undefined` and reading `user.dob` throws (app.js:96-97).

## Model

| member | source | states |
|---|---|---|
| `DateFormat.FormatDate` | app.js:92-94 | Total on every string. For inputs of at least 10 characters the result has exactly 10 characters: month slice, dash, day slice, dash, year slice. From 4 characters on, it ends with the year slice `date[..4]`. From 7 characters on, it starts with the month slice `date[5..7]` and a dash. For 5 to 9 characters it is the month slice, a dash, the day slice from position 8, a dash and the year, each slice clamped to the length. For inputs of at most 4 characters it is `--` followed by the input. Its length is always between 2 and 10. |
| `DateFormat.FormatDateRoundTrip` | app.js:92-94 | Rearranging `MM-DD-YYYY` back gives the first ten characters of the input exactly when those have dashes at positions 4 and 7 (`YYYY-MM-DD`). Both directions are proved. |
| `DateFormat.FormatDateIgnoresSuffix` | app.js:92-94 | Anything after the first ten characters, such as a `T00:00:00Z` time part, does not affect the result. |
| `DateFormat.FormatDateExample` | app.js:97 | `1990-05-17T00:00:00Z` becomes `05-17-1990`. |
| `Text.Slice` | app.js:93 | `slice(start, end)` with non-negative bounds is the exact sub-sequence when both bounds are in range. It is the suffix from `start` when `end` passes the length. It is empty when `start` passes the length or `end <= start`. It never fails. |
| `Text.Lower` | app.js:171 | Keeps the length, lower-cases each ASCII capital in place, and leaves no ASCII capital in the result. |
| `Text.LowerAppend` | app.js:170-171 | Lower-casing a joined field, such as `City, State`, is the same as joining the lower-cased parts. |
| `Text.LowerIdempotent` | app.js:171 | Lower-casing twice is the same as lower-casing once. |
| `Text.Contains` | app.js:174 | The literal form of `regex.test(e)`: the term is found somewhere in the field. A found term is never longer than the field, and the empty term is always found. The exact meaning is `Text.ContainsIffOccurs`. |
| `Text.ContainsIffOccurs` | app.js:174 | The search used by the `test` call succeeds exactly when the term occurs at some position of the field (both directions). |
| `Text.ContainsEmpty` | app.js:171 | The empty term occurs in every string. |
| `Text.NatToString` | app.js:53 | `i.toString()` is a non-empty string of decimal digits with no leading zero. |
| `Text.ToNumber` | app.js:71 | `Number(id)` gives a value exactly for digit strings, and 0 for the empty string. |
| `Text.ToNumberOfNatToString` | app.js:71 | Reading back the id a card was built with gives its store position: `Number(String(i)) == i`. |
| `Text.NatToStringInjective` | app.js:53 | Distinct store positions give distinct card ids. |
| `Directory.FieldMatches` | app.js:171-174 | One field passes the case-insensitive test exactly when the lower-cased term occurs at some position of the lower-cased field. |
| `Directory.Matches` | app.js:170-175 | `isChosen`: a profile is chosen exactly when its email, its `First Last` or its `City, State` passes the test. |
| `Directory.FilterFrom` | app.js:168-177 | The filter loop from position `from` returns strictly increasing positions in `[from, N)`. A position `j >= from` is included exactly when profile `j` matches. |
| `Directory.FilterCards` | app.js:164-178 | The rendered positions are strictly increasing and within `[0, N)`. Position `j` is rendered exactly when one of the three fields of profile `j` contains the term, ignoring case. |
| `Directory.IncreasingUnique` | app.js:168-176 | Two strictly increasing position lists with the same members are equal, so the filter's result is determined by which profiles match. |
| `Directory.EmptyTermMatches` | app.js:171 | The empty term matches every profile. |
| `Directory.FilterEmptyTerm` | app.js:168-176 | With the empty term the filter renders every profile, in store order: `0, 1, ..., N-1`. |
| `Directory.FilterNoMatch` | app.js:168-176 | A term that matches no profile renders no card. |
| `Directory.NoFieldMatches` | app.js:170-175 | A profile none of whose three fields matches is not chosen. |
| `Directory.CityMatches` | app.js:170-175 | A term equal to a profile's city, up to case, selects that profile through its `City, State` field. |
| `Directory.FilterFirstAndLast` | app.js:168-176 | Over three profiles where only the middle one fails the term, the filter renders positions `[0, 2]`. |
| `Directory.MatchesIgnoresTermCase` | app.js:171 | A term and its lower-cased form select the same profiles. |
| `Directory.MatchesExample` | app.js:170-175 | The term `SMITH` selects a profile whose last name is `Smith`. |
| `Modal.OpenAt` | app.js:96-97 | Opening succeeds exactly for a position inside the store, and then shows that position. Any other position fails with `NoSuchProfile`. |
| `Modal.Prev` | app.js:124-129 | Prev never opens or closes the modal. It moves back by exactly one, and it stays put exactly at position 0. |
| `Modal.Next` | app.js:133-138 | Next never opens or closes the modal. It moves on by exactly one, and it stays put exactly at the last position of the full store. |
| `Modal.Close` | app.js:141-143 | Close takes every modal state to `Closed`. |
| `Modal.NavigationInRange` | app.js:124-138 | From a modal on an existing profile, Prev and Next stay on an existing profile. |
| `Modal.PrevUndoesNext` | app.js:124-138 | Away from the last position, Prev after Next returns to the starting profile. |
| `Modal.NextUndoesPrev` | app.js:124-138 | Away from position 0, Next after Prev returns to the starting profile. |
| `Modal.NavigateInRange` | app.js:124-138 | From a valid start, any sequence of Prev/Next presses keeps the modal open (or closed) and its position inside the store. |
| `Modal.RepeatedNext` | app.js:133-138 | Pressing Next `k` times from position `i` reaches `min(i + k, N - 1)`. |
| `Modal.RepeatedPrev` | app.js:124-129 | Pressing Prev `k` times from position `i` reaches `max(i - k, 0)`. |
| `App.CardFor` | app.js:52-53 | The card `createCard(user, i)` builds carries `i.toString()` as its id, which `Number` reads back as `i`. |
| `App.Render` | app.js:51-53 | Rendering a list of positions gives one card per position, in order. Each card is the one `createCard` builds, and its id reads back as its position. |
| `App.Load` | app.js:22-30 | After loading, the store is the response in order. Card `i` is the card built for `i`, and its id reads back as `i`. No modal is open, and every card names an existing profile. |
| `App.LoadEqualsEmptySearch` | app.js:25-29 | The gallery built at load time equals the gallery of a search for the empty term. |
| `App.GalleryOfAllPositions` | app.js:25-29 | A gallery holding the card built for each position `0..N-1` in turn is the rendering of all `N` positions, so `Load`'s gallery is `Render(Range(N))`. |
| `App.NearestCard` | app.js:67-75 | Walking up from the click target finds nothing exactly when no element on the path has class `card`. Otherwise it finds the id of the first such element. |
| `App.Step` | app.js:164-178 | No event changes the store. Only a click can fail. Only a search changes the gallery, and a search leaves the modal as it was. The modal buttons apply `Modal.Prev`, `Modal.Next` over the full store, and `Modal.Close`, as `App.ButtonSteps` states. |
| `App.ButtonSteps` | app.js:124-143 | With the modal open on existing profile `i`: Prev opens `i - 1`, or stays at 0; Next opens `i + 1`, or stays at the last profile of the full store; Close removes the modal. Nothing else on the page changes. |
| `App.StepPreservesValid` | app.js:124-143 | Every event that succeeds keeps every card and the modal pointing at an existing profile, and keeps the store. |
| `App.SearchShowsMatches` | app.js:164-178 | After a search, some card reads back as position `i` exactly when profile `i` matches the term. The modal is unchanged. |
| `App.ClickRenderedCard` | app.js:67-75 | A click anywhere inside a rendered card succeeds and opens the modal at that card's store position. |
| `App.ClickOutsideCards` | app.js:67-75 | A click whose path contains no card changes nothing. |
| `App.NavigationIgnoresGallery` | app.js:133-138 | Prev and Next give the same modal whatever the gallery shows, so they walk the full store rather than the filtered view. |
| `Scenario.BostonSearch` | app.js:168-176 | Over Alice/Boston, Bob/Austin and Carol/Boston, the term `boston` selects positions `[0, 2]`. |
| `Scenario.BostonSearchStep` | app.js:164-178 | Typing `boston` on the freshly loaded page leaves the cards for positions 0 and 2. |
| `Scenario.BostonClickLastCard` | app.js:67-75 | Clicking the second visible card opens the modal at store position 2. |
| `Scenario.BostonNext` | app.js:133-138 | Next at position 2 (the last) does nothing. Next at position 0 moves to position 1, which no visible card shows. |

## Left out

- Fetching profiles and parsing JSON (`fetchProfiles`, app.js:10-13) are network I/O. The model's `Load` takes the parsed result list as a parameter. A failed fetch is not handled by the code and is not modelled.
- Card, modal and search-bar markup (app.js:39-57, 98-120, 150-157) and `console.log` are presentation only. A card is modelled by its id attribute and the modal by the position it shows.
- Event-listener registration and the startup sequence (app.js:181-187) are host event-loop wiring. Each modelled user event is one `Step`.
- `App.Step`: submitting the search form is not modelled. The `submit` listener is `filterCards` (app.js:186), which never calls `preventDefault`, so after filtering the browser performs the form's default GET submission to `#` (app.js:152), a navigation outside the page state. The `Typed` event covers the keyup path only.
- `Text.Slice`: lengths and slice bounds count characters (Unicode scalar values), while JavaScript's `slice` and `length` count UTF-16 code units. The two agree on dates without characters outside the Basic Multilingual Plane, which includes the ASCII dates the profile API delivers. `DateFormat.FormatDate` inherits this: its "exactly 10 characters" and slice claims hold in characters, not code units.
- `Text.Lower`: ASCII lower-casing only. The `i` flag of `RegExp` also folds non-ASCII letters, and that is not modelled.
- `Directory.FilterCards`: the term is a literal substring. The code builds a `RegExp` from it, so metacharacters have their pattern meaning and an invalid pattern throws. Neither is modelled.
- `Text.ToNumber`: only digit strings and the empty string are read. Other strings are NaN, although `Number` accepts whitespace, signs, decimals, exponents and hex prefixes. Card ids are always written by `i.toString()`, so the gallery never produces such ids.
- `App.NearestCard`: the loop in `displayClickedCard` does not stop at the first card. It would open a modal for every `card` ancestor. Cards are only ever appended to the gallery, so they never nest and the nearest card is the only one.
- Opening a modal while one is shown stacks a second overlay (app.js:120 never removes the first), and the duplicate button ids then resolve through `querySelector`. These are DOM artefacts, and the model just moves to the new position.
- `App.Load`: loading starts from the empty store, because `userList` starts empty and `createCards` runs once. Card ids would differ from store positions on a second load, and that case is not modelled.

=== FILE: app.dfy ===
/**
 * The page as a whole: the profile store, the cards the gallery shows, and
 * the detail modal, driven by the user's events.  A card is known by the id
 * attribute it was built with (its store position, written in decimal); a
 * click on the gallery is resolved by walking from the clicked element up to
 * the nearest card and reading that id back as a number.
 */
module App {
  import opened Results
  import opened Text
  import opened Directory
  import opened Modal

  /** A rendered card, known by its `id` attribute. */
  datatype Card = Card(id: string)

  /** `createCard(user, i)`: the card for store position `i`. */
  function CardFor(i: nat): (c: Card)
    ensures ToNumber(c.id) == Value(i)
  {
    ToNumberOfNatToString(i);
    Card(NatToString(i))
  }

  /** The store position a card's id denotes: `Number(card.id)`. */
  function CardIndex(c: Card): Number {
    ToNumber(c.id)
  }

  /** The gallery that shows the given store positions, one card each, in order. */
  function Render(positions: seq<nat>): (g: seq<Card>)
    ensures |g| == |positions|
    ensures forall k :: 0 <= k < |g| ==> g[k] == CardFor(positions[k])
    ensures forall k :: 0 <= k < |g| ==> CardIndex(g[k]) == Value(positions[k])
  {
    if positions == [] then []
    else
      ToNumberOfNatToString(positions[0]);
      [CardFor(positions[0])] + Render(positions[1..])
  }

  /** The state of the page after startup. */
  datatype Page = Page(store: seq<Profile>, gallery: seq<Card>, modal: ModalState)

  /** Every card and the modal refer to a profile that exists. */
  predicate Valid(a: Page) {
    && (forall k :: 0 <= k < |a.gallery| ==>
          CardIndex(a.gallery[k]).Value? && CardIndex(a.gallery[k]).n < |a.store|)
    && InRange(a.modal, |a.store|)
  }

  /**
   * `createCards`: the fetched results are stored in response order and the
   * card for result `i` gets id `i`; no modal is open.
   */
  method Load(results: seq<Profile>) returns (a: Page)
    ensures a.store == results
    ensures |a.gallery| == |results|
    ensures forall i :: 0 <= i < |results| ==> a.gallery[i] == CardFor(i)
    ensures forall i :: 0 <= i < |results| ==> CardIndex(a.gallery[i]) == Value(i)
    ensures a.modal == Closed
    ensures Valid(a)
  {
    var store: seq<Profile> := [];
    var gallery: seq<Card> := [];
    for i := 0 to |results|
      invariant store == results[..i]
      invariant |gallery| == i
      invariant forall j :: 0 <= j < i ==> gallery[j] == CardFor(j)
      invariant forall j :: 0 <= j < i ==> CardIndex(gallery[j]) == Value(j)
    {
      ToNumberOfNatToString(i);
      gallery := gallery + [CardFor(i)];
      store := store + [results[i]];
    }
    assert store == results[..|results|];
    a := Page(store, gallery, Closed);
  }

  /** An element on the path from a click target up to the document. */
  datatype Node = Node(className: string, id: string)

  /** The element of a rendered card. */
  function CardNode(c: Card): Node {
    Node("card", c.id)
  }

  predicate IsCard(n: Node) {
    n.className == "card"
  }

  /**
   * The id of the first element on the path (target first) whose class is
   * exactly `card`, or None when the click landed outside every card.
   */
  function NearestCard(path: seq<Node>): (r: Option<string>)
    ensures r.None? <==> forall k :: 0 <= k < |path| ==> !IsCard(path[k])
    ensures r.Some? ==> exists k :: (0 <= k < |path| && IsCard(path[k]) && path[k].id == r.value
      && forall j :: 0 <= j < k ==> !IsCard(path[j]))
  {
    if path == [] then None
    else if IsCard(path[0]) then Some(path[0].id)
    else
      var r := NearestCard(path[1..]);
      assert r.Some? ==> exists k :: (1 <= k < |path| && IsCard(path[k]) && path[k].id == r.value
        && forall j :: 1 <= j < k ==> !IsCard(path[j]));
      r
  }

  /** What the user does. */
  datatype Event =
    | Typed(term: string)     // keyup in the search field
    | Clicked(path: seq<Node>) // a click in the gallery; the path runs from the target upwards
    | PrevPressed
    | NextPressed
    | ClosePressed

  /**
   * The page's reaction to one event.  Searching re-renders the gallery and
   * leaves the modal alone; a click opens the modal at the nearest card's
   * position, or fails if that id names no profile; the modal buttons move
   * through the whole store.  The store itself never changes.
   */
  function Step(a: Page, e: Event): (r: Result<Page, OpenError>)
    ensures r.Ok? ==> r.value.store == a.store
    ensures r.Err? ==> e.Clicked?
    ensures r.Ok? && !e.Typed? ==> r.value.gallery == a.gallery
    ensures r.Ok? && e.Typed? ==> r.value.modal == a.modal
  {
    match e
    case Typed(term) => Ok(a.(gallery := Render(FilterCards(a.store, term))))
    case Clicked(path) =>
      (match NearestCard(path)
       case None => Ok(a)
       case Some(id) =>
         match ToNumber(id)
         case NaN => Err(NotANumber)
         case Value(i) =>
           match OpenAt(|a.store|, i)
           case Ok(m) => Ok(a.(modal := m))
           case Err(err) => Err(err))
    case PrevPressed => Ok(a.(modal := Prev(a.modal)))
    case NextPressed => Ok(a.(modal := Next(a.modal, |a.store|)))
    case ClosePressed => Ok(a.(modal := Close(a.modal)))
  }

  /** The startup gallery is the gallery of a search for the empty term. */
  lemma LoadEqualsEmptySearch(a: Page)
    requires |a.gallery| == |a.store|
    requires forall i :: 0 <= i < |a.store| ==> a.gallery[i] == CardFor(i)
    ensures a.gallery == Render(FilterCards(a.store, ""))
  {
    FilterEmptyTerm(a.store);
  }

  /** A gallery built card by card for every position is the rendering of all positions. */
  lemma GalleryOfAllPositions(g: seq<Card>, count: nat)
    requires |g| == count
    requires forall i :: 0 <= i < count ==> g[i] == CardFor(i)
    ensures g == Render(Range(count))
  {
  }

  /**
   * The modal buttons on a page whose modal shows profile `i`: Prev goes to
   * the previous profile (staying at the first), Next to the following one
   * (staying at the last), Close removes the modal.
   */
  lemma ButtonSteps(a: Page, i: nat)
    requires a.modal == Open(i) && i < |a.store|
    ensures Step(a, PrevPressed) == Ok(a.(modal := Open(if i > 0 then i - 1 else 0)))
    ensures Step(a, NextPressed) == Ok(a.(modal := Open(if i + 1 < |a.store| then i + 1 else i)))
    ensures Step(a, ClosePressed) == Ok(a.(modal := Closed))
  {
  }

  /** Every event keeps the store as it is and the invariant true. */
  lemma StepPreservesValid(a: Page, e: Event)
    requires Valid(a)
    ensures Step(a, e).Ok? ==> Step(a, e).value.store == a.store && Valid(Step(a, e).value)
  {
  }

  /** After a search the gallery shows exactly the matching profiles, in store order. */
  lemma SearchShowsMatches(a: Page, term: string)
    ensures Step(a, Typed(term)).Ok?
    ensures forall i :: 0 <= i < |a.store| ==>
      (Matches(a.store[i], term) <==>
        exists k :: 0 <= k < |Step(a, Typed(term)).value.gallery|
          && CardIndex(Step(a, Typed(term)).value.gallery[k]) == Value(i))
    ensures Step(a, Typed(term)).value.modal == a.modal
  {
    var ids := FilterCards(a.store, term);
    var g := Render(ids);
    forall i | 0 <= i < |a.store|
      ensures Matches(a.store[i], term) <==> exists k :: 0 <= k < |g| && CardIndex(g[k]) == Value(i)
    {
      if Matches(a.store[i], term) {
        var k :| 0 <= k < |ids| && ids[k] == i;
        assert CardIndex(g[k]) == Value(i);
      }
    }
  }

  /**
   * Clicking anywhere inside a rendered card opens the modal on that card's
   * profile: the path climbs through elements that are not cards and then
   * reaches the card itself.
   */
  lemma ClickRenderedCard(a: Page, k: nat, inner: seq<Node>, outer: seq<Node>)
    requires Valid(a)
    requires k < |a.gallery|
    requires forall j :: 0 <= j < |inner| ==> !IsCard(inner[j])
    ensures Step(a, Clicked(inner + [CardNode(a.gallery[k])] + outer))
      == Ok(a.(modal := Open(CardIndex(a.gallery[k]).n)))
  {
    var path := inner + [CardNode(a.gallery[k])] + outer;
    assert IsCard(path[|inner|]);
    var r := NearestCard(path);
    var j :| 0 <= j < |path| && IsCard(path[j]) && path[j].id == r.value
      && forall j' :: 0 <= j' < j ==> !IsCard(path[j']);
    assert forall i :: 0 <= i < |inner| ==> path[i] == inner[i];
    assert j == |inner|;
  }

  /** A click that reaches no card changes nothing. */
  lemma ClickOutsideCards(a: Page, path: seq<Node>)
    requires forall j :: 0 <= j < |path| ==> !IsCard(path[j])
    ensures Step(a, Clicked(path)) == Ok(a)
  {
  }

  /**
   * Prev and Next do not look at the gallery: after a search they still walk
   * the whole store, including profiles the search has hidden.
   */
  lemma NavigationIgnoresGallery(a: Page, g: seq<Card>)
    ensures Step(a.(gallery := g), PrevPressed).value.modal == Step(a, PrevPressed).value.modal
    ensures Step(a.(gallery := g), NextPressed).value.modal == Step(a, NextPressed).value.modal
  {
  }
}

=== FILE: date_format.dfy ===
/**
 * The birthday shown in the detail modal: the profile's ISO-8601 date string
 * (`YYYY-MM-DD...`) is rearranged into `MM-DD-YYYY` by cutting three fixed
 * slices out of it.  There is no parsing and no calendar check, and because
 * `slice` clamps its bounds the transform is total on every string.
 */
module DateFormat {
  import opened Text

  /** `formatDate(date)`: month slice, day slice and year slice, joined by dashes. */
  function FormatDate(date: string): (r: string)
    ensures |date| >= 10 ==>
      && |r| == 10
      && r[..2] == date[5..7] && r[2] == '-'
      && r[3..5] == date[8..10] && r[5] == '-'
      && r[6..] == date[..4]
    ensures |date| <= 4 ==> r == "--" + date
    ensures 4 <= |date| ==> |r| >= 6 && r[|r| - 4..] == date[..4]
    ensures 7 <= |date| ==> |r| >= 8 && r[..3] == date[5..7] + "-"
    ensures 5 <= |date| < 10 ==>
      r == date[5..if |date| < 7 then |date| else 7] + "-" + date[if |date| < 8 then |date| else 8..] + "-" + date[..4]
    ensures 2 <= |r| <= 10
  {
    Slice(date, 5, 7) + "-" + Slice(date, 8, 10) + "-" + Slice(date, 0, 4)
  }

  /** The reverse rearrangement: `MM-DD-YYYY` back to `YYYY-MM-DD`. */
  function UsToIso(us: string): (iso: string)
    requires |us| == 10
    ensures |iso| == 10
  {
    us[6..] + "-" + us[..2] + "-" + us[3..5]
  }

  /**
   * Reformatting loses nothing of the date part exactly when that part has its
   * dashes where ISO-8601 puts them: `UsToIso` undoes `FormatDate` on the first
   * ten characters if and only if they read `YYYY-MM-DD`.
   */
  lemma FormatDateRoundTrip(date: string)
    requires |date| >= 10
    ensures UsToIso(FormatDate(date)) == date[..10] <==> date[4] == '-' && date[7] == '-'
  {
    var back := UsToIso(FormatDate(date));
    assert back[..4] == date[..4];
    assert back[4] == '-' && back[7] == '-';
    assert back[5..7] == date[5..7] && back[8..10] == date[8..10];
    if date[4] == '-' && date[7] == '-' {
      assert forall i :: 0 <= i < 10 ==> back[i] == date[i] by {
        forall i | 0 <= i < 10
          ensures back[i] == date[i]
        {
          if i < 4 {
            assert back[i] == back[..4][i];
          } else if 5 <= i < 7 {
            assert back[i] == back[5..7][i - 5];
          } else if 8 <= i {
            assert back[i] == back[8..10][i - 8];
          }
        }
      }
    } else {
      assert back[4] != date[..10][4] || back[7] != date[..10][7];
    }
  }

  /**
   * Only the first ten characters matter: a time-of-day suffix such as
   * `T00:00:00Z` never reaches the output.
   */
  lemma FormatDateIgnoresSuffix(date: string, suffix: string)
    requires |date| == 10
    ensures FormatDate(date + suffix) == FormatDate(date)
  {
    var long := date + suffix;
    assert Slice(long, 5, 7) == long[5..7] == date[5..7] == Slice(date, 5, 7);
    assert Slice(long, 8, 10) == long[8..10] == date[8..10] == Slice(date, 8, 10);
    assert Slice(long, 0, 4) == long[0..4] == date[0..4] == Slice(date, 0, 4);
  }

  /** A birth date as the profile API delivers it. */
  lemma FormatDateExample()
    ensures FormatDate("1990-05-17T00:00:00Z") == "05-17-1990"
  {
    var d := "1990-05-17T00:00:00Z";
    assert Slice(d, 5, 7) == "05" && Slice(d, 8, 10) == "17" && Slice(d, 0, 4) == "1990";
  }
}

=== FILE: directory.dfy ===
/**
 * The profile store and the search filter.  The store is the list of fetched
 * profiles in response order; a profile's position in it is its identity for
 * the rest of the page.  The filter keeps the positions of the profiles that
 * match the search term, in store order, without touching the store.
 */
module Directory {
  import opened Text

  /** One fetched person, with the fields the directory reads. */
  datatype Profile = Profile(
    first: string,
    last: string,
    email: string,
    phone: string,
    streetNumber: string,
    streetName: string,
    city: string,
    state: string,
    postcode: string,
    pictureMedium: string,
    pictureLarge: string,
    birthDate: string)

  /** The name line of a card: `First Last`. */
  function FullName(p: Profile): string {
    p.first + " " + p.last
  }

  /** The location line of a card: `City, State`. */
  function Place(p: Profile): string {
    p.city + ", " + p.state
  }

  /** The three strings the search looks at, in the order the filter tries them. */
  function SearchFields(p: Profile): seq<string> {
    [p.email, FullName(p), Place(p)]
  }

  /** A field matches when it contains the term, ignoring ASCII case. */
  predicate FieldMatches(field: string, term: string)
    ensures FieldMatches(field, term) <==> exists k :: OccursAt(Lower(field), Lower(term), k)
  {
    ContainsIffOccurs(Lower(field), Lower(term));
    assert Contains(Lower(field), Lower(term)) <==> exists k :: OccursAt(Lower(field), Lower(term), k);
    Contains(Lower(field), Lower(term))
  }

  /** A profile is chosen when at least one of its search fields matches. */
  predicate Matches(p: Profile, term: string)
    ensures Matches(p, term) <==>
      FieldMatches(p.email, term) || FieldMatches(FullName(p), term) || FieldMatches(Place(p), term)
  {
    exists f :: f in SearchFields(p) && FieldMatches(f, term)
  }

  predicate StrictlyIncreasing(s: seq<nat>) {
    forall a, b :: 0 <= a < b < |s| ==> s[a] < s[b]
  }

  /** The positions `0, 1, ..., n - 1`. */
  function Range(n: nat): (r: seq<nat>)
    ensures |r| == n
    ensures forall k :: 0 <= k < n ==> r[k] == k
  {
    if n == 0 then [] else Range(n - 1) + [n - 1]
  }

  /** The filter loop from position `from` onwards. */
  function FilterFrom(store: seq<Profile>, term: string, from: nat): (r: seq<nat>)
    requires from <= |store|
    ensures StrictlyIncreasing(r)
    ensures forall k :: 0 <= k < |r| ==> from <= r[k] < |store|
    ensures forall j :: from <= j < |store| ==> (j in r <==> Matches(store[j], term))
    decreases |store| - from
  {
    if from == |store| then []
    else if Matches(store[from], term) then [from] + FilterFrom(store, term, from + 1)
    else FilterFrom(store, term, from + 1)
  }

  /**
   * `filterCards`: the store positions whose profiles match the term, in store
   * order.  Each one is rendered as a card carrying that position as its id.
   */
  function FilterCards(store: seq<Profile>, term: string): (r: seq<nat>)
    ensures StrictlyIncreasing(r)
    ensures forall k :: 0 <= k < |r| ==> r[k] < |store|
    ensures forall j :: 0 <= j < |store| ==> (j in r <==> Matches(store[j], term))
  {
    FilterFrom(store, term, 0)
  }

  /** Two strictly increasing sequences with the same elements are equal. */
  lemma {:induction false} IncreasingUnique(a: seq<nat>, b: seq<nat>)
    requires StrictlyIncreasing(a) && StrictlyIncreasing(b)
    requires forall x :: x in a <==> x in b
    ensures a == b
    decreases |a|
  {
    assert a != [] ==> a[0] in a;
    assert b != [] ==> b[0] in b;
    if a != [] && b != [] {
      // the least elements agree
      var i :| 0 <= i < |a| && a[i] == b[0];
      var j :| 0 <= j < |b| && b[j] == a[0];
      assert a[0] <= a[i] && b[0] <= b[j];
      forall x
        ensures x in a[1..] <==> x in b[1..]
      {
        if x in a[1..] {
          var k :| 1 <= k < |a| && a[k] == x;
          assert x in b && x != b[0];
        }
        if x in b[1..] {
          var k :| 1 <= k < |b| && b[k] == x;
          assert x in a && x != a[0];
        }
      }
      IncreasingUnique(a[1..], b[1..]);
      assert a == [a[0]] + a[1..] && b == [b[0]] + b[1..];
    }
  }

  /** The empty term matches every profile. */
  lemma EmptyTermMatches(p: Profile)
    ensures Matches(p, "")
  {
    assert Lower("") == "";
    ContainsEmpty(Lower(p.email));
    assert p.email in SearchFields(p);
  }

  /** With the empty term every profile is rendered, in store order. */
  lemma FilterEmptyTerm(store: seq<Profile>)
    ensures FilterCards(store, "") == Range(|store|)
  {
    var r := FilterCards(store, "");
    var all := Range(|store|);
    forall x
      ensures x in r <==> x in all
    {
      if 0 <= x < |store| {
        EmptyTermMatches(store[x]);
        assert all[x] == x;
      }
    }
    IncreasingUnique(r, all);
  }

  /** A term that matches no profile renders nothing. */
  lemma FilterNoMatch(store: seq<Profile>, term: string)
    requires forall j :: 0 <= j < |store| ==> !Matches(store[j], term)
    ensures FilterCards(store, term) == []
  {
    IncreasingUnique(FilterCards(store, term), []);
  }

  /** The search ignores the case of the term. */
  lemma MatchesIgnoresTermCase(p: Profile, term: string)
    ensures Matches(p, term) <==> Matches(p, Lower(term))
  {
    LowerIdempotent(term);
  }

  /** A profile none of whose three fields matches is not chosen. */
  lemma NoFieldMatches(p: Profile, term: string)
    requires !FieldMatches(p.email, term)
    requires !FieldMatches(FullName(p), term)
    requires !FieldMatches(Place(p), term)
    ensures !Matches(p, term)
  {
  }

  /** A term that is the profile's city, up to case, matches the profile. */
  lemma CityMatches(p: Profile, term: string)
    requires Lower(term) == Lower(p.city)
    ensures Matches(p, term)
  {
    LowerAppend(p.city, ", " + p.state);
    var l := Lower(Place(p));
    assert l[..|term|] == Lower(p.city);
    assert OccursAt(l, Lower(term), 0);
    OccursImpliesContains(l, Lower(term), 0);
    assert Place(p) in SearchFields(p);
  }

  /**
   * With three profiles of which only the middle one fails the term, the
   * filter renders the first and the last.
   */
  lemma FilterFirstAndLast(store: seq<Profile>, term: string)
    requires |store| == 3
    requires Matches(store[0], term) && !Matches(store[1], term) && Matches(store[2], term)
    ensures FilterCards(store, term) == [0, 2]
  {
    assert FilterFrom(store, term, 2) == [2] + FilterFrom(store, term, 3);
    assert FilterFrom(store, term, 1) == FilterFrom(store, term, 2);
  }

  /** An upper-case term finds a capitalised last name. */
  lemma MatchesExample()
    ensures Matches(Profile("John", "Smith", "j@x.org", "", "", "", "Reno", "Nevada", "", "", "", ""), "SMITH")
  {
    var p := Profile("John", "Smith", "j@x.org", "", "", "", "Reno", "Nevada", "", "", "", "");
    assert Lower(FullName(p))[5..10] == "smith";
    assert Lower("SMITH") == "smith";
    assert OccursAt(Lower(FullName(p)), Lower("SMITH"), 5);
    OccursImpliesContains(Lower(FullName(p)), Lower("SMITH"), 5);
    assert FullName(p) in SearchFields(p);
  }
}

=== FILE: modal.dfy ===
/**
 * The detail modal as a two-state machine.  It is either closed or open on one
 * store position.  Prev and Next step through the FULL store (bounded by the
 * store's length, whatever the gallery currently shows) and do nothing at the
 * ends; Close always closes.
 */
module Modal {
  import opened Results

  datatype ModalState = Closed | Open(index: nat)

  /** Why a modal cannot be opened at a requested position. */
  datatype OpenError =
    | NotANumber                // the card id did not read as a number
    | NoSuchProfile(index: nat) // no profile at that position

  /** The modal shows an existing profile, if it is open at all. */
  predicate InRange(m: ModalState, count: nat) {
    m.Open? ==> m.index < count
  }

  /**
   * `displayModal(index)` in a store of `count` profiles: it opens on an
   * existing position and fails on any other (the profile lookup yields
   * nothing and reading its fields throws).
   */
  function OpenAt(count: nat, index: nat): (r: Result<ModalState, OpenError>)
    ensures r.Ok? <==> index < count
    ensures r.Ok? ==> r.value.Open? && r.value.index == index
    ensures r.Err? ==> r.error == NoSuchProfile(index)
  {
    if index < count then Ok(Open(index)) else Err(NoSuchProfile(index))
  }

  /** The Prev button: one position back, unless already at the first. */
  function Prev(m: ModalState): (r: ModalState)
    ensures r.Open? <==> m.Open?
    ensures r.Open? ==> r.index <= m.index <= r.index + 1
    ensures r.Open? ==> (r.index == m.index <==> m.index == 0)
  {
    match m
    case Closed => Closed
    case Open(i) => if i > 0 then Open(i - 1) else m
  }

  /** The Next button: one position on, unless already at the last of `count`. */
  function Next(m: ModalState, count: nat): (r: ModalState)
    ensures r.Open? <==> m.Open?
    ensures r.Open? ==> m.index <= r.index <= m.index + 1
    ensures r.Open? ==> (r.index == m.index <==> m.index + 1 >= count)
  {
    match m
    case Closed => Closed
    case Open(i) => if i < count - 1 then Open(i + 1) else m
  }

  /** The close button. */
  function Close(m: ModalState): (r: ModalState)
    ensures r == Closed
  {
    Closed
  }

  /** Prev and Next never leave the store. */
  lemma NavigationInRange(m: ModalState, count: nat)
    requires InRange(m, count)
    ensures InRange(Prev(m), count) && InRange(Next(m, count), count)
  {
  }

  /** Prev undoes Next wherever Next moved. */
  lemma PrevUndoesNext(i: nat, count: nat)
    requires i + 1 < count
    ensures Prev(Next(Open(i), count)) == Open(i)
  {
  }

  /** Next undoes Prev wherever Prev moved (inside the store). */
  lemma NextUndoesPrev(i: nat, count: nat)
    requires 0 < i < count
    ensures Next(Prev(Open(i)), count) == Open(i)
  {
  }

  /** A press of one of the modal's navigation buttons. */
  datatype Nav = PrevPress | NextPress

  /** The modal after a sequence of navigation presses, first press first. */
  function Navigate(m: ModalState, count: nat, presses: seq<Nav>): ModalState
    decreases |presses|
  {
    if presses == [] then m
    else
      var m' := if presses[0] == PrevPress then Prev(m) else Next(m, count);
      Navigate(m', count, presses[1..])
  }

  /** Any sequence of presses from a valid modal keeps it open and in range. */
  lemma {:induction false} NavigateInRange(m: ModalState, count: nat, presses: seq<Nav>)
    requires InRange(m, count)
    ensures InRange(Navigate(m, count, presses), count)
    ensures Navigate(m, count, presses).Open? <==> m.Open?
    decreases |presses|
  {
    if presses != [] {
      var m' := if presses[0] == PrevPress then Prev(m) else Next(m, count);
      NavigationInRange(m, count);
      NavigateInRange(m', count, presses[1..]);
    }
  }

  /** `k` presses of a single button, as a press sequence. */
  function Repeat(press: Nav, k: nat): (r: seq<Nav>)
    ensures |r| == k
    ensures forall j :: 0 <= j < k ==> r[j] == press
  {
    if k == 0 then [] else [press] + Repeat(press, k - 1)
  }

  /** Pressing Next `k` times walks forward and then sticks at the last profile. */
  lemma {:induction false} RepeatedNext(i: nat, count: nat, k: nat)
    requires i < count
    ensures Navigate(Open(i), count, Repeat(NextPress, k))
      == Open(if i + k < count then i + k else count - 1)
    decreases k
  {
    if k > 0 {
      assert Repeat(NextPress, k)[1..] == Repeat(NextPress, k - 1);
      var i' := if i < count - 1 then i + 1 else i;
      RepeatedNext(i', count, k - 1);
    }
  }

  /** Pressing Prev `k` times walks back and then sticks at the first profile. */
  lemma {:induction false} RepeatedPrev(i: nat, count: nat, k: nat)
    requires i < count
    ensures Navigate(Open(i), count, Repeat(PrevPress, k)) == Open(if k <= i then i - k else 0)
    decreases k
  {
    if k > 0 {
      assert Repeat(PrevPress, k)[1..] == Repeat(PrevPress, k - 1);
      var i' := if i > 0 then i - 1 else i;
      RepeatedPrev(i', count, k - 1);
    }
  }
}

=== FILE: results.dfy ===
/** Failure-carrying values shared by the directory modules. */
module Results {

  /** An optional value: a search that may find nothing. */
  datatype Option<+T> = None | Some(value: T)

  /** The outcome of an operation that may fail with an error of type E. */
  datatype Result<+T, +E> = Ok(value: T) | Err(error: E)
}

=== FILE: scenario.dfy ===
/**
 * A worked session over a three-profile directory: a search that hides one
 * profile, a click on a filtered card, and modal navigation that still walks
 * the whole store.
 */
module Scenario {
  import opened Results
  import opened Text
  import opened Directory
  import opened Modal
  import opened App

  /** Three profiles, two of them in Boston. */
  function BostonStore(): seq<Profile> {
    [ Profile("Alice", "Ray", "al@x.org", "", "", "", "Boston", "MA", "", "", "", ""),
      Profile("Bob", "Lee", "bob@x.org", "", "", "", "Austin", "TX", "", "", "", ""),
      Profile("Carol", "Ray", "cr@x.org", "", "", "", "Boston", "MA", "", "", "", "") ]
  }

  /** A field that lacks, in either case, one letter of a lower-case term does not match it. */
  lemma FieldMissesLetter(field: string, term: string, i: nat)
    requires i < |term| && Lower(term) == term && 'a' <= term[i] <= 'z'
    requires term[i] !in field && (term[i] as int - 32) as char !in field
    ensures !FieldMatches(field, term)
  {
    LowerAvoids(field, term[i]);
    MissingCharNotContained(Lower(field), term, i);
  }

  lemma BostonTermIsLower()
    ensures Lower("boston") == "boston"
  {
  }

  lemma BostonMissesBobEmail()
    ensures !FieldMatches("bob@x.org", "boston")
  {
    BostonTermIsLower();
    FieldMissesLetter("bob@x.org", "boston", 2);
  }

  lemma BostonMissesBobName()
    ensures !FieldMatches("Bob Lee", "boston")
  {
    BostonTermIsLower();
    FieldMissesLetter("Bob Lee", "boston", 2);
  }

  lemma BostonMissesAustin()
    ensures !FieldMatches("Austin, TX", "boston")
  {
    BostonTermIsLower();
    FieldMissesLetter("Austin, TX", "boston", 0);
  }

  lemma BostonMissesBob()
    ensures !Matches(BostonStore()[1], "boston")
  {
    var bob := BostonStore()[1];
    assert bob.email == "bob@x.org" && FullName(bob) == "Bob Lee" && Place(bob) == "Austin, TX";
    BostonMissesBobEmail();
    BostonMissesBobName();
    BostonMissesAustin();
    NoFieldMatches(bob, "boston");
  }

  lemma BostonFindsAliceAndCarol()
    ensures Matches(BostonStore()[0], "boston") && Matches(BostonStore()[2], "boston")
  {
    assert Lower("Boston") == "boston";
    BostonTermIsLower();
    CityMatches(BostonStore()[0], "boston");
    CityMatches(BostonStore()[2], "boston");
  }

  /** Searching the three profiles for "boston" selects positions 0 and 2. */
  lemma BostonSearch()
    ensures FilterCards(BostonStore(), "boston") == [0, 2]
  {
    BostonMissesBob();
    BostonFindsAliceAndCarol();
    FilterFirstAndLast(BostonStore(), "boston");
  }

  /** The gallery after the search for "boston": the cards for positions 0 and 2. */
  function Searched(): Page {
    Page(BostonStore(), Render([0, 2]), Closed)
  }

  /**
   * Typing "boston" into the search field of the freshly loaded page.  The
   * start state is what `Load` produces for the three profiles: its ensures
   * give card `i` as `CardFor(i)`, which `GalleryOfAllPositions` turns into
   * `Render(Range(3))`.
   */
  lemma BostonSearchStep()
    ensures Step(Page(BostonStore(), Render(Range(3)), Closed), Typed("boston")) == Ok(Searched())
  {
    BostonSearch();
  }

  /** Clicking the second visible card opens the modal on store position 2. */
  lemma BostonClickLastCard()
    ensures Step(Searched(), Clicked([CardNode(Searched().gallery[1])])) == Ok(Searched().(modal := Open(2)))
  {
    ToNumberOfNatToString(2);
    assert Searched().gallery[1] == CardFor(2);
    assert NearestCard([CardNode(CardFor(2))]) == Some(NatToString(2));
  }

  /**
   * Next on the last profile does nothing; Next on the first profile moves to
   * position 1, a profile the search has hidden.
   */
  lemma BostonNext()
    ensures Step(Searched().(modal := Open(2)), NextPressed) == Ok(Searched().(modal := Open(2)))
    ensures Step(Searched().(modal := Open(0)), NextPressed) == Ok(Searched().(modal := Open(1)))
    ensures CardIndex(Searched().gallery[0]) != Value(1) && CardIndex(Searched().gallery[1]) != Value(1)
  {
  }
}

=== FILE: text.dfy ===
/**
 * The string primitives the directory relies on: ASCII lower-casing for the
 * case-insensitive search, literal substring search, JavaScript's clamping
 * `slice`, and the decimal conversions behind a card's `id` attribute
 * (`i.toString()` when the card is built, `Number(id)` when it is clicked).
 */
module Text {

  // ---------------------------------------------------------------------------
  // Case folding
  // ---------------------------------------------------------------------------

  predicate IsAsciiUpper(c: char) {
    'A' <= c <= 'Z'
  }

  /** Lower-cases one ASCII letter; every other character is left alone. */
  function LowerChar(c: char): char {
    if IsAsciiUpper(c) then (c as int + 32) as char else c
  }

  /** Lower-cases a whole string, character by character. */
  function Lower(s: string): (r: string)
    ensures |r| == |s|
    ensures forall i :: 0 <= i < |s| ==> r[i] == LowerChar(s[i])
    ensures forall i :: 0 <= i < |r| ==> !IsAsciiUpper(r[i])
  {
    if s == [] then [] else [LowerChar(s[0])] + Lower(s[1..])
  }

  /** Lower-casing twice is lower-casing once. */
  lemma LowerIdempotent(s: string)
    ensures Lower(Lower(s)) == Lower(s)
  {
    var l := Lower(s);
    assert forall i :: 0 <= i < |l| ==> LowerChar(l[i]) == l[i];
  }

  /** Lower-casing distributes over concatenation. */
  lemma LowerAppend(a: string, b: string)
    ensures Lower(a + b) == Lower(a) + Lower(b)
  {
    var l := Lower(a + b);
    assert forall i :: 0 <= i < |a| ==> l[i] == LowerChar(a[i]);
    assert forall i :: 0 <= i < |b| ==> l[|a| + i] == LowerChar(b[i]);
  }

  /** A lower-case letter appears in a lowered string only if it or its capital appeared. */
  lemma LowerAvoids(s: string, c: char)
    requires 'a' <= c <= 'z'
    requires c !in s && (c as int - 32) as char !in s
    ensures c !in Lower(s)
  {
    forall k | 0 <= k < |s|
      ensures Lower(s)[k] != c
    {
      assert s[k] in s;
    }
  }

  // ---------------------------------------------------------------------------
  // Substring search
  // ---------------------------------------------------------------------------

  /** `needle` occurs in `hay` starting at position `k`. */
  ghost predicate OccursAt(hay: string, needle: string, k: int) {
    0 <= k && k + |needle| <= |hay| && hay[k..k + |needle|] == needle
  }

  /**
   * Literal substring search: does `needle` occur anywhere in `hay`?  This is
   * what `RegExp.test` computes for a pattern without metacharacters.
   */
  function Contains(hay: string, needle: string): (b: bool)
    ensures b ==> |needle| <= |hay|
    ensures needle == [] ==> b
    decreases |hay|
  {
    (|needle| <= |hay| && hay[..|needle|] == needle)
    || (|hay| > 0 && Contains(hay[1..], needle))
  }

  /** An occurrence at position `k` is found by the search. */
  lemma {:induction false} OccursImpliesContains(hay: string, needle: string, k: int)
    requires OccursAt(hay, needle, k)
    ensures Contains(hay, needle)
    decreases k
  {
    if k == 0 {
      assert hay[..|needle|] == hay[0..|needle|];
    } else {
      assert hay[1..][k - 1..k - 1 + |needle|] == hay[k..k + |needle|];
      OccursImpliesContains(hay[1..], needle, k - 1);
    }
  }

  /** Contains is exactly "there is a position where the needle occurs". */
  lemma {:induction false} ContainsIffOccurs(hay: string, needle: string)
    ensures Contains(hay, needle) <==> exists k :: OccursAt(hay, needle, k)
    decreases |hay|
  {
    if exists k :: OccursAt(hay, needle, k) {
      var k :| OccursAt(hay, needle, k);
      OccursImpliesContains(hay, needle, k);
    } else if Contains(hay, needle) {
      if |needle| <= |hay| && hay[..|needle|] == needle {
        assert OccursAt(hay, needle, 0);
      } else {
        ContainsIffOccurs(hay[1..], needle);
        var k :| OccursAt(hay[1..], needle, k);
        assert hay[k + 1..k + 1 + |needle|] == hay[1..][k..k + |needle|];
        assert OccursAt(hay, needle, k + 1);
      }
    }
  }

  /** A needle with a character the haystack lacks is not found. */
  lemma MissingCharNotContained(hay: string, needle: string, i: nat)
    requires i < |needle|
    requires needle[i] !in hay
    ensures !Contains(hay, needle)
  {
    forall k | 0 <= k && k + |needle| <= |hay|
      ensures !OccursAt(hay, needle, k)
    {
      assert hay[k..k + |needle|][i] == hay[k + i];
      assert hay[k + i] in hay;
    }
    ContainsIffOccurs(hay, needle);
  }

  /** The empty needle occurs in every string. */
  lemma ContainsEmpty(hay: string)
    ensures Contains(hay, [])
  {
  }

  // ---------------------------------------------------------------------------
  // String.prototype.slice with non-negative bounds
  // ---------------------------------------------------------------------------

  /**
   * JavaScript's `s.slice(start, end)` for non-negative bounds: both bounds are
   * clamped to the length, and an empty string results when the clamped end
   * does not lie after the clamped start.  It never fails.
   */
  function Slice(s: string, start: nat, end: nat): (r: string)
    ensures start <= end <= |s| ==> r == s[start..end]
    ensures start <= |s| <= end ==> r == s[start..]
    ensures |s| <= start || end <= start ==> r == []
    ensures |r| <= |s|
  {
    var from := if start < |s| then start else |s|;
    var to := if end < |s| then end else |s|;
    if to <= from then [] else s[from..to]
  }

  // ---------------------------------------------------------------------------
  // Decimal conversions
  // ---------------------------------------------------------------------------

  predicate IsDigit(c: char) {
    '0' <= c <= '9'
  }

  predicate AllDigits(s: string) {
    forall i :: 0 <= i < |s| ==> IsDigit(s[i])
  }

  function DigitChar(d: nat): (c: char)
    requires d < 10
    ensures IsDigit(c)
  {
    ('0' as int + d) as char
  }

  function DigitValue(c: char): (d: nat)
    requires IsDigit(c)
    ensures d < 10
  {
    c as int - '0' as int
  }

  /** `n.toString()` for a non-negative integer: decimal, no leading zeros. */
  function NatToString(n: nat): (s: string)
    ensures |s| > 0 && AllDigits(s)
    ensures |s| > 1 ==> s[0] != '0'
    decreases n
  {
    if n < 10 then [DigitChar(n)] else NatToString(n / 10) + [DigitChar(n % 10)]
  }

  /** The value of a string of decimal digits, most significant first. */
  function DigitsValue(s: string): nat
    requires AllDigits(s)
  {
    if s == [] then 0 else DigitsValue(s[..|s| - 1]) * 10 + DigitValue(s[|s| - 1])
  }

  /** The result of JavaScript's `Number(s)`, as far as this model needs it. */
  datatype Number = NaN | Value(n: nat)

  /**
   * `Number(s)` on the strings the directory produces: a string of decimal
   * digits denotes its value (leading zeros allowed), the empty string denotes
   * 0, and every other string is NaN.
   */
  function ToNumber(s: string): (r: Number)
    ensures r.Value? <==> AllDigits(s)
    ensures s == [] ==> r == Value(0)
  {
    if AllDigits(s) then Value(DigitsValue(s)) else NaN
  }

  /** Reading back a card id written by `NatToString` recovers the index. */
  lemma {:induction false} ToNumberOfNatToString(n: nat)
    ensures ToNumber(NatToString(n)) == Value(n)
    decreases n
  {
    var s := NatToString(n);
    if n >= 10 {
      var init := NatToString(n / 10);
      ToNumberOfNatToString(n / 10);
      assert s == init + [DigitChar(n % 10)];
      assert s[..|s| - 1] == init;
      assert DigitValue(s[|s| - 1]) == n % 10;
      assert DigitsValue(s) == DigitsValue(init) * 10 + n % 10;
    }
  }

  /** Distinct indices get distinct card ids. */
  lemma NatToStringInjective(m: nat, n: nat)
    ensures NatToString(m) == NatToString(n) ==> m == n
  {
    ToNumberOfNatToString(m);
    ToNumberOfNatToString(n);
  }
}
